=== FILE: README.md ===
# Layered-substrate model of SCUFF-EM's `libSubstrate`

This project models the core of `LayeredSubstrate` in Dafny. That core is the object that describes a stack of planar dielectric layers, with an optional perfectly conducting ground plane. The Green's-function code of SCUFF-EM uses it. The model covers four parts:

- **The substrate reader** (`LayeredSubstrate::Initialize`). It reads a line-oriented description in one of two modes. One is a standalone `.substrate` file. The other is a `SUBSTRATE ... ENDSUBSTRATE` section of a larger file, which continues the caller's line counter. It builds the interface depths `zInterface`, one material per layer (`MPLayer`) and the ground-plane depth `zGP`. It stops at the first error and reports it as an error message.
- **The depth-to-layer lookup** `GetLayerIndex`.
- **The single-entry frequency cache** `UpdateCachedEpsMu`. It normalises the sign of the frequency and recomputes every layer's (epsilon, mu) only when the frequency changes.
- **The evaluation settings**: compiled-in defaults, then `SCUFF_SUBSTRATE_*` overrides, then the per-axis cap fallback.

Modules:

- `Results` holds `Option` and `Result`.
- `Text` holds `strcasecmp` equality, decimal line numbers and the `snprintf` buffer cap.
- `Layers` holds the stack, its ordering invariant and the lookup.
- `Parser` holds line classification, the per-line step, the reading loop, and a declarative reading of the same input with the lemmas that connect the two.
- `EpsMuCache` holds the cache.
- `Config` holds the settings.
- `Substrate` holds `Initialize`, the two constructor entry points and the per-object operations.
- `Scenarios` holds worked examples.

Calls into code outside the model are parameters:

- `sscanf(token, "%le")` is `Oracles.parseReal`.
- The `ErrMsg` of `new MatProp(name)` is `Oracles.materialError`.
- `MatProp::GetEpsMu` is the `epsMu` argument.
- `EqualFloat` is the `eq` argument.

Each input line is given as the token list `Tokenize` produced for it. The environment is an `Overrides` record, with `None` for a variable that is unset or that did not scan. The file found on the search path is given as `Option<seq<Line>>`. The `-HUGE_VAL` "no ground plane" sentinel is `None`.

Points where the code's behaviour is easy to misread:

- Interface depths only need to be non-increasing. The check at `libSubstrate.cc:163` uses a strict `>`, so equal depths (a zero-thickness layer) are accepted.
- In a standalone file, `MEDIUM` may appear anywhere, and the last one wins.
- `ENDSUBSTRATE` ends the read in both modes, so any lines after it in a standalone file are ignored.
- A `SUBSTRATE` section without its `ENDSUBSTRATE` is always rejected, even when every line before the end is well formed. `Scenarios.TwoLayerSection` shows this on a section holding `-1.0 SiO2` and `-2.0 Silicon`: it is accepted when `endsubstrate` follows, and rejected when the lines simply run out.
- Location prefixes are written into a 100-character buffer, so an error message keeps at most the first 99 characters of `file:line: `. The ENDSUBSTRATE warning does not go through `FileLine`, so the 100-character cap does not apply to it.
- The embedded line counter is written back only when the loop reached `ENDSUBSTRATE` without error. It is written back even if the ground-plane check then fails.

## Model

| member | source | states |
|---|---|---|
| Text.NatToString | libs/libSubstrate/libSubstrate.cc:130 | the `%i` line number in a message prefix is a non-empty string of decimal digits whose decimal value is the number, with no leading zero unless the number is 0 |
| Text.Truncate | libs/libSubstrate/libSubstrate.cc:130 | `snprintf` into a buffer of `size` characters keeps exactly the first `size - 1` characters of a longer text, and the whole text when it is shorter than `size` |
| Layers.NonIncreasingOrdered | libs/libSubstrate/libSubstrate.cc:163-166 | the reader compares each new depth only with the previous interface, and that is enough: every interface then lies at or below every interface above it |
| Layers.AppendKeepsNonIncreasing | libs/libSubstrate/libSubstrate.cc:163-178 | appending a depth no greater than the last interface keeps the whole interface list non-increasing |
| Layers.LayerIndexFrom | libs/libSubstrate/libSubstrate.cc:321-323 | the scan from interface `ni` returns the first index at or after `ni` whose interface `z` lies strictly above, or the interface count if there is none |
| Layers.LayerIndex | libs/libSubstrate/libSubstrate.cc:320-324 | the lookup returns the smallest `ni` with `z > zInterface[ni]`, or `NumInterfaces`; the result is always in `[0, NumInterfaces]` |
| Layers.LayerIndexIsContainingLayer | libs/libSubstrate/libSubstrate.cc:320-324 | for ordered interfaces, the lookup returns `i` if and only if `z` lies in layer `i`'s depth range (at or below interface `i-1`, strictly above interface `i`) |
| Layers.LayerIndexMonotone | libs/libSubstrate/libSubstrate.cc:320-324 | if `z1 > z2` then `index(z1) <= index(z2)`, for any interface list |
| Layers.InterfacePointBelongsBelow | libs/libSubstrate/libSubstrate.cc:320-324 | a point exactly on interface `k` maps to a layer below it, and to layer `k+1` when the next interface is strictly deeper |
| Parser.Prefix | libs/libSubstrate/libSubstrate.cc:102-130 | the location prefix held in `FileLine` is `file:line: ` (or `file: `, or nothing), counted one character per byte: exactly its first 99 characters when it is 100 or longer, and all of it otherwise |
| Parser.Message | libs/libSubstrate/libSubstrate.cc:130-202 | every error message starts with its (capped) location prefix, and with the full location text whenever that is under 100 characters; every message but a material error adds a description; a material error is passed on verbatim after the prefix |
| Parser.Classify | libs/libSubstrate/libSubstrate.cc:112-161 | a line is blank exactly when it has no tokens or its first token starts with `#`; an ENDSUBSTRATE line exactly when its first token is ENDSUBSTRATE in any case; every other statement needs exactly two tokens; MEDIUM in any case is a medium line, forbidden in a section; otherwise a first token that does not scan is a bad z-value, and a scanned depth followed by GROUNDPLANE in any case is a ground plane, by anything else a layer of that material |
| Parser.Step | libs/libSubstrate/libSubstrate.cc:125-180 | one line keeps the stack consistent; only a material line adds an interface, exactly one interface and one layer at the end; only a GROUNDPLANE line changes `zGP`; a material line above the last interface is rejected with "z coordinate lies above previous layer" |
| Parser.ReadLines | libs/libSubstrate/libSubstrate.cc:100-181 | the loop keeps `NumLayers == NumInterfaces + 1` and non-increasing depths, only extends the interface list, and counts every line it reads |
| Parser.ReadLinesMeaning | libs/libSubstrate/libSubstrate.cc:103-181 | the loop finishes if and only if every statement before the first ENDSUBSTRATE is acceptable and the depths never increase; the resulting depths, materials, ground plane, terminator flag and line count are then those of the declarative reading |
| Parser.ReadLinesExtend | libs/libSubstrate/libSubstrate.cc:103-181 | reading one more line after an unterminated, error-free prefix is exactly one more step on the stack read so far |
| Parser.ReadLinesStopsAtEnd | libs/libSubstrate/libSubstrate.cc:125-128 | lines after the first ENDSUBSTRATE do not affect the loop |
| Parser.LayerLineAppends | libs/libSubstrate/libSubstrate.cc:161-180 | a material line at or below the last interface, with a known material, appends exactly one interface and one layer and changes nothing else |
| Parser.LayerLineAboveRejected | libs/libSubstrate/libSubstrate.cc:163-166 | a material line above the last interface fails at that line with "z coordinate lies above previous layer", whatever its material |
| Parser.GroundPlaneLineEffect | libs/libSubstrate/libSubstrate.cc:157-160 | `z GROUNDPLANE` sets `zGP` to `z`, overwriting any earlier value, and adds no interface or layer |
| Parser.GroundPlaneTokensEffect | libs/libSubstrate/libSubstrate.cc:151-160 | a two-token line whose first token is not a keyword but scans as a number, followed by GROUNDPLANE in any case, sets `zGP` to that number and changes nothing else |
| Parser.MediumRefusedInSection | libs/libSubstrate/libSubstrate.cc:137-141 | a two-token MEDIUM line, in any letter case, fails in a SUBSTRATE section with no line prefix, whatever its material |
| Parser.MediumLineEffect | libs/libSubstrate/libSubstrate.cc:137-149 | in a standalone file a two-token MEDIUM line, in any letter case, replaces layer 0's material when the material is known, and otherwise fails at that line with the material database's message after the prefix |
| Parser.LayerLineUnknownMaterial | libs/libSubstrate/libSubstrate.cc:168-172 | a material line at or below the last interface whose material is unknown fails at that line with the material database's message after the prefix |
| Parser.LineSyntaxEffect | libs/libSubstrate/libSubstrate.cc:112-155 | blank and `#` lines change nothing; ENDSUBSTRATE in any case ends the read; other lines without exactly two tokens are syntax errors; a non-numeric first token other than MEDIUM is a "bad z-value" |
| EpsMuCache.Normalize | libs/libSubstrate/libSubstrate.cc:309 | the normalised frequency has a non-negative real part and is the input or its negation, unchanged when the real part is already non-negative |
| EpsMuCache.InitialCache | libs/libSubstrate/libSubstrate.cc:209-211 | after construction the cache key has a negative real part and no layer entry has been computed |
| EpsMuCache.Refresh | libs/libSubstrate/libSubstrate.cc:313-314 | the recompute loop queries layers `0..n-1` in order at the given frequency and stores each layer's result |
| EpsMuCache.UpdateCachedEpsMu | libs/libSubstrate/libSubstrate.cc:307-315 | a frequency that `eq` matches to the cached key after sign normalisation leaves the cache unchanged and queries nothing; any other frequency sets the key to the normalised frequency and recomputes every layer |
| EpsMuCache.UpdateKeepsCoherent | libs/libSubstrate/libSubstrate.cc:307-315 | after a recomputation, or a hit on a cache that was already coherent, every layer's entry is that material's (epsilon, mu) at the cached key |
| EpsMuCache.SignFlipSameKey | libs/libSubstrate/libSubstrate.cc:309 | when `Re(omega) != 0`, `omega` and `-omega` normalise to the same key |
| EpsMuCache.RepeatCallIsHit | libs/libSubstrate/libSubstrate.cc:307-315 | with a reflexive `eq`, repeating a call, or repeating it with `-omega` when `Re(omega) != 0`, is a no-op with no material query |
| EpsMuCache.FirstCallComputes | libs/libSubstrate/libSubstrate.cc:307-315 | with exact equality, the first call after construction always queries every layer |
| Config.Configure | libs/libSubstrate/libSubstrate.cc:213-251 | each setting is its override when one scanned and the default otherwise (2000, 1e-8, 1e-4, 9, 9, terse); a per-axis cap left at 0 becomes the global cap; the byq-files flag is set only when its text starts with `1`; the method is automatic |
| Config.DefaultConfiguration | libs/libSubstrate/libSubstrate.cc:213-244 | with no overrides, every axis gets 2000 evaluations and every other field has its compiled-in value |
| Config.RelTolOverrideIsLocal | libs/libSubstrate/libSubstrate.cc:232-233 | the relative-tolerance override changes that field and no other |
| Config.GlobalCapDrivesUnsetAxes | libs/libSubstrate/libSubstrate.cc:224-244 | the global cap override carries over to per-axis caps left unset and leaves caps that were set alone |
| Substrate.Initialize | libs/libSubstrate/libSubstrate.cc:79-254 | a constructed substrate has a well-formed stack (ordered interfaces, `NumLayers == NumInterfaces + 1`, ground plane not above the deepest interface), an uncomputed cache, the configured settings and no interpolator; the counter is written back only in embedded mode, and the superfluous-ENDSUBSTRATE warning is only given in standalone mode |
| Substrate.InitializeMeaning | libs/libSubstrate/libSubstrate.cc:79-204 | construction succeeds if and only if the input is accepted (acceptable statements, non-increasing depths, a terminator in embedded mode, ground plane not above the deepest interface); the stack is then the one the declarative reading describes |
| Substrate.EmbeddedTopIsVacuum | libs/libSubstrate/libSubstrate.cc:137-142 | a substrate read from a SUBSTRATE section always has VACUUM as its upper half-space |
| Substrate.EmbeddedNeedsEnd | libs/libSubstrate/libSubstrate.cc:188-195 | a SUBSTRATE section with no ENDSUBSTRATE line fails and leaves the caller's counter unwritten |
| Substrate.StandaloneEndOnlyWarns | libs/libSubstrate/libSubstrate.cc:125-196 | ENDSUBSTRATE in a standalone file gives the same result as stopping just before it, plus a warning whenever the preceding lines read cleanly |
| Substrate.LinesAfterEndIgnored | libs/libSubstrate/libSubstrate.cc:125-128 | whatever follows the first ENDSUBSTRATE line does not change the outcome |
| Substrate.AscendingDepthsRejected | libs/libSubstrate/libSubstrate.cc:163-166 | any increase between two layer depths before the terminator makes construction fail |
| Substrate.GroundPlaneAboveRejected | libs/libSubstrate/libSubstrate.cc:201-204 | a ground plane above the deepest interface makes construction fail |
| Substrate.CounterWriteBack | libs/libSubstrate/libSubstrate.cc:188-195 | the counter is written back exactly when every statement before the first ENDSUBSTRATE is acceptable, the depths never increase and an ENDSUBSTRATE exists (whatever the ground-plane check later finds); it is then the starting value plus every line read, up to and including ENDSUBSTRATE |
| Substrate.LeadingBlankIgnored | libs/libSubstrate/libSubstrate.cc:112-116 | a leading blank or comment line changes neither acceptance nor the constructed substrate |
| Substrate.FromFile | libs/libSubstrate/libSubstrate.cc:50-62 | a file that cannot be opened gives "could not open file NAME"; otherwise construction succeeds exactly on accepted input and yields the described stack |
| Substrate.FromSection | libs/libSubstrate/libSubstrate.cc:69-72 | a section succeeds exactly on accepted input; the caller's counter is either unchanged or advanced past ENDSUBSTRATE, and it moves exactly when the loop reached ENDSUBSTRATE with no line error, so also when the ground-plane check then fails |
| Substrate.GetLayerIndex | libs/libSubstrate/libSubstrate.cc:320-324 | on a constructed substrate the lookup names an existing layer whose depth range contains `z` |
| Substrate.UpdateFrequency | libs/libSubstrate/libSubstrate.cc:307-315 | on any constructed substrate a frequency update changes no field but the cache; a miss keys the cache at the normalised frequency; a recomputation, or a hit on a coherent cache, leaves the cache coherent; a cache hit leaves the whole object unchanged |
| Substrate.FirstUpdateComputes | libs/libSubstrate/libSubstrate.cc:307-315 | when `eq` never matches keys on opposite sides of zero real part, the first update of a freshly constructed substrate queries every layer and leaves the cache coherent |
| Substrate.ConstructedIsValid | libs/libSubstrate/libSubstrate.cc:84-211 | a constructed substrate has a well-formed stack and one cache entry per layer |
| Scenarios.TwoLayerLookup | libs/libSubstrate/libSubstrate.cc:320-324 | with interfaces at -1 and -2, the points 0.5, -1.5, -3.0 and -1.0 fall in layers 0, 1, 2 and 1 |
| Scenarios.LowerCaseKeyword | libs/libSubstrate/libSubstrate.cc:125 | `endsubstrate` matches ENDSUBSTRATE under the case-blind comparison |
| Scenarios.TwoLayerStack | libs/libSubstrate/libSubstrate.cc:161-180 | `-1.0 SiO2` then `-2.0 Silicon` give two interfaces and three layers, and the lookup maps 0.5, -1.5, -3.0 and -1.0 to layers 0, 1, 2 and 1 |
| Scenarios.TwoLayerSection | libs/libSubstrate/libSubstrate.cc:188-195 | the same layers as a section starting at line 10 are accepted with `endsubstrate`, with the counter left at 13, and rejected without it |
| Scenarios.GroundPlaneAboveSection | libs/libSubstrate/libSubstrate.cc:188-204 | a section `-1.0 SiO2`, `0.0 GROUNDPLANE`, `ENDSUBSTRATE` starting after line 10 fails the ground-plane check yet moves the caller's counter to 13 |
| Scenarios.GroundPlaneOnly | libs/libSubstrate/libSubstrate.cc:157-160 | `0.0 GROUNDPLANE` alone gives no interfaces, one layer and a ground plane at 0 |
| Scenarios.AscendingDepths | libs/libSubstrate/libSubstrate.cc:163-166 | `-1.0 Silicon` then `-0.5 SiO2` fail at line 2 with the ordering error |
| Scenarios.RelTolOverride | libs/libSubstrate/libSubstrate.cc:232-233 | a relative-tolerance override of 1e-6 is what the settings hold, and the absolute tolerance keeps its default |

## Left out

- `Describe` (libSubstrate.cc:273-302) is left out. It is printf formatting with `%g`, for diagnostics only.
- `CreateLayeredSubstrate` (libSubstrate.cc:329-341) is left out. It writes the text to a temporary file and reads it back as a standalone file. Creating and deleting the file is I/O.
- The destructor (libSubstrate.cc:259-268) and all memory allocation are resource management, so they are left out.
- File lookup through `SCUFF_SUBSTRATE_PATH` (`fopenPath`) is I/O. The file's contents, or their absence, are an input.
- `Log` output is not modelled. `Warn` output is modelled only as the warning text returned by `Initialize`.
- Reading lines is not modelled: `fgets` with its 1000-character buffer (long lines split in two), the removal of the last character of every line, and `Tokenize` itself. Each line is given as its token list. As a result, a final line without a newline, which loses its last character in the source, is not represented.
- Numbers are not scanned in the model. The numbers that `sscanf` scans (`%le` for depths, `%i` and `%le` for overrides) are given already scanned. A malformed override is the same as an absent one, which is how the source treats it.
- Infinite and NaN depths are left out. With them, `fabs(zGP) != HUGE_VAL` and the ordering comparisons behave differently from real numbers. For example, `inf GROUNDPLANE` passes the sanity check and `-inf GROUNDPLANE` resets the ground plane to "none".
- 32-bit wrap-around of `LineNum` and of the integer settings is not modelled. The model uses unbounded integers.
- `MatProp` internals, `GetEpsMu` and the tolerance inside `EqualFloat` are foreign code. They appear as parameters.
- The value of `LIBSUBSTRATE_TERSE` is not part of this model, because the header that defines it is not either. The default verbosity is the constructor `Terse`.
- The enumerators of `ForceMethod` other than `AUTO` are not part of this model either, for the same reason. The three-way selector is an assumption.
- The scalar Green's-function interpolator is a foreign object. Only its initial keys (`zSGFI`, `OmegaSGFI`) and its absence are modelled.
- `src/libscuff/libscuffInternals.h` and `src/libs/libIncField/PlaneWave.cc` are not part of this model. They hold BEM declarations and floating-point field evaluation outside this core.
- Parser.Prefix: file names are taken as one character per byte. `snprintf` counts bytes, so for a name with multi-byte characters the source may cut the prefix earlier, even inside a character, than the model's 99-character cap does.
- EpsMuCache.FirstCallComputes: stated for exact equality only, because `EqualFloat`'s tolerance is not modelled. A tolerance wide enough to match -1 with a normalised frequency would make the first call a hit.
- EpsMuCache.RepeatCallIsHit: assumes that `eq` is reflexive, as its precondition states; the float comparison itself is a parameter of the model.

=== FILE: cache.dfy ===
/** The single-entry frequency cache of `LayeredSubstrate::UpdateCachedEpsMu`:
    per-layer permittivity and permeability, valid for one frequency
    `OmegaCache`, refreshed only when a different frequency is asked for. */
module EpsMuCache {
  import opened Results

  datatype Complex = Complex(re: real, im: real)

  function Neg(w: Complex): Complex
  {
    Complex(-w.re, -w.im)
  }

  /** The canonical sign under which `LayeredSubstrate::UpdateCachedEpsMu`
      caches a frequency: one with negative real part is negated as a whole,
      any other is kept. */
  function Normalize(w: Complex): (r: Complex)
    ensures r.re >= 0.0
    ensures r == w || r == Neg(w)
    ensures w.re >= 0.0 ==> r == w
  {
    if w.re < 0.0 then Neg(w) else w
  }

  /** One layer's (epsilon, mu). */
  datatype EpsMu = EpsMu(eps: Complex, mu: Complex)

  /** `OmegaCache` with `EpsLayer`/`MuLayer`; an entry is `None` until it is
      first computed (the arrays are allocated uninitialised). */
  datatype Cache = Cache(omega: Complex, entries: seq<Option<EpsMu>>)

  /** `OmegaCache = -1.0` right after construction, nothing computed yet. */
  function InitialCache(numLayers: nat): (c: Cache)
    ensures c.omega.re < 0.0
    ensures |c.entries| == numLayers
    ensures forall n :: 0 <= n < numLayers ==> c.entries[n].None?
  {
    Cache(Complex(-1.0, 0.0), seq(numLayers, n => None))
  }

  /** What a call did: the new cache and the material queries it made, in order. */
  datatype Update = Update(cache: Cache, queries: seq<(string, Complex)>)

  /** The recomputation in `LayeredSubstrate::UpdateCachedEpsMu`: each of
      the first `count` layers, from the top down, asks its material for
      (epsilon, mu) at frequency `w`. */
  function Refresh(materials: seq<string>, w: Complex, epsMu: (string, Complex) -> EpsMu, count: nat): (u: Update)
    requires count <= |materials|
    ensures u.cache.omega == w
    ensures |u.cache.entries| == count && |u.queries| == count
    ensures forall n :: 0 <= n < count ==>
      u.cache.entries[n] == Some(epsMu(materials[n], w)) && u.queries[n] == (materials[n], w)
  {
    if count == 0 then Update(Cache(w, []), [])
    else
      var u := Refresh(materials, w, epsMu, count - 1);
      Update(Cache(w, u.cache.entries + [Some(epsMu(materials[count - 1], w))]),
             u.queries + [(materials[count - 1], w)])
  }

  /** `UpdateCachedEpsMu(Omega)` with `EqualFloat` as `eq` and
      `MPLayer[n]->GetEpsMu` as `epsMu`. A frequency equal (under `eq`) to
      the cached one, after sign normalisation, costs nothing; any other
      recomputes every layer at the normalised frequency. */
  function UpdateCachedEpsMu(c: Cache, materials: seq<string>, omega: Complex,
                             eq: (Complex, Complex) -> bool,
                             epsMu: (string, Complex) -> EpsMu): (u: Update)
    requires |c.entries| == |materials|
    ensures |u.cache.entries| == |materials|
    ensures eq(c.omega, Normalize(omega)) ==> u.cache == c && u.queries == []
    ensures !eq(c.omega, Normalize(omega)) ==>
      && u.cache.omega == Normalize(omega)
      && |u.queries| == |materials|
      && forall n :: 0 <= n < |materials| ==>
           u.cache.entries[n] == Some(epsMu(materials[n], Normalize(omega)))
           && u.queries[n] == (materials[n], Normalize(omega))
  {
    var w := Normalize(omega);
    if eq(c.omega, w) then Update(c, [])
    else Refresh(materials, w, epsMu, |materials|)
  }

  /** The cache answers correctly for its key: every layer holds the
      material's (epsilon, mu) at `omega`. */
  predicate Coherent(c: Cache, materials: seq<string>, epsMu: (string, Complex) -> EpsMu)
  {
    |c.entries| == |materials| &&
    forall n :: 0 <= n < |materials| ==> c.entries[n] == Some(epsMu(materials[n], c.omega))
  }

  /** After any update the cache is coherent: a miss makes it so, and a
      hit leaves an already coherent cache untouched. */
  lemma UpdateKeepsCoherent(c: Cache, materials: seq<string>, omega: Complex,
                            eq: (Complex, Complex) -> bool, epsMu: (string, Complex) -> EpsMu)
    requires |c.entries| == |materials|
    ensures Coherent(c, materials, epsMu) || !eq(c.omega, Normalize(omega)) ==>
      Coherent(UpdateCachedEpsMu(c, materials, omega, eq, epsMu).cache, materials, epsMu)
  {
  }

  /** When `Re(omega) != 0`, `omega` and `-omega` share one cache key. */
  lemma SignFlipSameKey(omega: Complex)
    requires omega.re != 0.0
    ensures Normalize(Neg(omega)) == Normalize(omega)
  {
  }

  /** With a reflexive `eq`, a second call with the same frequency, or with
      its negation when `Re(omega) != 0`, changes nothing and queries no
      material. */
  lemma RepeatCallIsHit(c: Cache, materials: seq<string>, omega: Complex,
                        eq: (Complex, Complex) -> bool, epsMu: (string, Complex) -> EpsMu)
    requires |c.entries| == |materials|
    requires forall x :: eq(x, x)
    ensures var c1 := UpdateCachedEpsMu(c, materials, omega, eq, epsMu).cache;
            var u2 := UpdateCachedEpsMu(c1, materials, omega, eq, epsMu);
            u2.cache == c1 && u2.queries == []
    ensures omega.re != 0.0 ==>
            var c1 := UpdateCachedEpsMu(c, materials, omega, eq, epsMu).cache;
            var u2 := UpdateCachedEpsMu(c1, materials, Neg(omega), eq, epsMu);
            u2.cache == c1 && u2.queries == []
  {
  }

  /** With an exact comparison the first call after construction always
      computes: the initial key `-1` has a negative real part, which no
      normalised frequency has. */
  lemma FirstCallComputes(numLayers: nat, materials: seq<string>, omega: Complex,
                          epsMu: (string, Complex) -> EpsMu)
    requires |materials| == numLayers
    ensures var u := UpdateCachedEpsMu(InitialCache(numLayers), materials, omega, (a, b) => a == b, epsMu);
            |u.queries| == numLayers && Coherent(u.cache, materials, epsMu)
  {
  }
}

=== FILE: config.dfy ===
/** The numerical-evaluation settings `Initialize` fills in after a
    successful read: compiled-in defaults, then the `SCUFF_SUBSTRATE_*`
    environment overrides, then the per-axis cap fallback. */
module Config {
  import opened Results

  /** `LogLevel`: the compiled-in terse level, or a level read from the
      environment. */
  datatype Verbosity = Terse | Level(code: int)

  /** `ForceMethod`: automatic selection or one forced method. */
  datatype Method = Auto | FreeSpaceOnly | StaticOnly

  datatype Config = Config(
    qMaxEval: int,
    qMaxEvalA: int,
    qMaxEvalB: int,
    qAbsTol: real,
    qRelTol: real,
    ppiOrder: int,
    phiEOrder: int,
    logLevel: Verbosity,
    termOnly: int,
    writeByqFiles: bool,
    forceMethod: Method,
    forceFreeSpace: bool,
    staticLimit: bool)

  /** The environment, one field per variable: `None` when the variable is
      unset or its text did not scan (then the default stays). The
      BYQFILES flag is kept as raw text because only its first character
      matters. */
  datatype Overrides = Overrides(
    qMaxEval: Option<int>,    // SCUFF_SUBSTRATE_QMAXEVAL
    qMaxEvalA: Option<int>,   // SCUFF_SUBSTRATE_QMAXEVALA
    qMaxEvalB: Option<int>,   // SCUFF_SUBSTRATE_QMAXEVALB
    qAbsTol: Option<real>,    // SCUFF_SUBSTRATE_QABSTOL
    qRelTol: Option<real>,    // SCUFF_SUBSTRATE_QRELTOL
    ppiOrder: Option<int>,    // SCUFF_SUBSTRATE_PPIORDER
    phiEOrder: Option<int>,   // SCUFF_SUBSTRATE_PHIEORDER
    logLevel: Option<int>,    // SCUFF_SUBSTRATE_LOGLEVEL
    byqFiles: Option<string>) // SCUFF_SUBSTRATE_BYQFILES

  const NoOverrides := Overrides(None, None, None, None, None, None, None, None, None)

  /** The compiled-in values, per-axis caps still 0 ("not set"). */
  const Defaults := Config(2000, 0, 0, 0.00000001, 0.0001, 9, 9, Terse, 0, false, Auto, false, false)

  /** `1 != 0` only when the text starts with the character `1`. */
  predicate FlagSet(s: Option<string>)
  {
    s.Some? && |s.value| > 0 && s.value[0] == '1'
  }

  /** Each environment variable, read in source order, replaces its
      default when it scans; the per-axis caps stay 0 unless set. */
  function ReadOverrides(ov: Overrides): Config
  {
    Defaults.(
      qMaxEval := ov.qMaxEval.GetOr(Defaults.qMaxEval),
      qMaxEvalA := ov.qMaxEvalA.GetOr(Defaults.qMaxEvalA),
      qMaxEvalB := ov.qMaxEvalB.GetOr(Defaults.qMaxEvalB),
      qAbsTol := ov.qAbsTol.GetOr(Defaults.qAbsTol),
      qRelTol := ov.qRelTol.GetOr(Defaults.qRelTol),
      ppiOrder := ov.ppiOrder.GetOr(Defaults.ppiOrder),
      phiEOrder := ov.phiEOrder.GetOr(Defaults.phiEOrder),
      logLevel := if ov.logLevel.Some? then Level(ov.logLevel.value) else Defaults.logLevel,
      writeByqFiles := Defaults.writeByqFiles || FlagSet(ov.byqFiles))
  }

  /** A per-axis cap still 0 after the overrides falls back to the global cap. */
  function FillAxisCaps(c: Config): Config
  {
    c.(qMaxEvalA := if c.qMaxEvalA == 0 then c.qMaxEval else c.qMaxEvalA,
       qMaxEvalB := if c.qMaxEvalB == 0 then c.qMaxEval else c.qMaxEvalB)
  }

  /** The settings after construction: defaults, overrides, cap fallback. */
  function Configure(ov: Overrides): (c: Config)
    ensures c.qMaxEval == ov.qMaxEval.GetOr(2000)
    ensures c.qMaxEvalA == (if ov.qMaxEvalA.GetOr(0) == 0 then c.qMaxEval else ov.qMaxEvalA.value)
    ensures c.qMaxEvalB == (if ov.qMaxEvalB.GetOr(0) == 0 then c.qMaxEval else ov.qMaxEvalB.value)
    ensures c.qMaxEvalA == 0 ==> c.qMaxEval == 0
    ensures c.qMaxEvalB == 0 ==> c.qMaxEval == 0
    ensures c.qAbsTol == ov.qAbsTol.GetOr(0.00000001)
    ensures c.qRelTol == ov.qRelTol.GetOr(0.0001)
    ensures c.ppiOrder == ov.ppiOrder.GetOr(9) && c.phiEOrder == ov.phiEOrder.GetOr(9)
    ensures c.logLevel == (if ov.logLevel.Some? then Level(ov.logLevel.value) else Terse)
    ensures c.writeByqFiles <==> FlagSet(ov.byqFiles)
    ensures c.termOnly == 0 && c.forceMethod == Auto && !c.forceFreeSpace && !c.staticLimit
  {
    FillAxisCaps(ReadOverrides(ov))
  }

  /** Without overrides: 2000 evaluations on every axis, tolerances 1e-8
      and 1e-4, orders 9, terse, no files, automatic method. */
  lemma DefaultConfiguration()
    ensures Configure(NoOverrides) == Defaults.(qMaxEvalA := 2000, qMaxEvalB := 2000)
  {
  }

  /** Overrides act field by field: setting the relative tolerance changes
      that field and nothing else. */
  lemma RelTolOverrideIsLocal(ov: Overrides, t: real)
    ensures Configure(ov.(qRelTol := Some(t))) == Configure(ov).(qRelTol := t)
  {
  }

  /** Raising the global cap moves every per-axis cap left unset with it,
      and leaves explicitly set ones alone. */
  lemma GlobalCapDrivesUnsetAxes(ov: Overrides, m: int)
    ensures var c := Configure(ov.(qMaxEval := Some(m)));
            && c.qMaxEval == m
            && (ov.qMaxEvalA.GetOr(0) == 0 ==> c.qMaxEvalA == m)
            && (ov.qMaxEvalA.GetOr(0) != 0 ==> c.qMaxEvalA == Configure(ov).qMaxEvalA)
            && (ov.qMaxEvalB.GetOr(0) == 0 ==> c.qMaxEvalB == m)
            && (ov.qMaxEvalB.GetOr(0) != 0 ==> c.qMaxEvalB == Configure(ov).qMaxEvalB)
  {
  }
}

=== FILE: layers.dfy ===
/** The layer stack of a layered substrate: interface depths listed top to
    bottom, one material per layer, and an optional ground plane; plus the
    depth-to-layer lookup `LayeredSubstrate::GetLayerIndex`. */
module Layers {
  import opened Results

  /** Interface depths, listed top to bottom, never increase: each lies at
      or below the one before it, which is the comparison the reader makes.
      Equal neighbours (a layer of zero thickness) are allowed. */
  predicate NonIncreasing(zs: seq<real>)
  {
    forall i :: 0 < i < |zs| ==> zs[i] <= zs[i - 1]
  }

  /** Comparing neighbours is enough: every interface lies at or below
      every interface above it. */
  lemma {:induction false} NonIncreasingOrdered(zs: seq<real>, i: nat, j: nat)
    requires NonIncreasing(zs)
    requires i <= j < |zs|
    ensures zs[j] <= zs[i]
    decreases j - i
  {
    if i < j {
      NonIncreasingOrdered(zs, i, j - 1);
    }
  }

  /** `zInterface`, `MPLayer` (by material name) and `zGP`, where `zGP` is
      `None` for the `-HUGE_VAL` "no ground plane" sentinel. Layer 0 is the
      upper half-space; layer `i > 0` lies below interface `i - 1`. */
  datatype Stack = Stack(zInterface: seq<real>, materials: seq<string>, zGP: Option<real>)
  {
    function NumInterfaces(): nat { |zInterface| }
    function NumLayers(): nat { |materials| }
  }

  /** What the reader keeps true after every line: ordered interfaces and
      one more layer than interfaces. */
  predicate LayersConsistent(s: Stack)
  {
    NonIncreasing(s.zInterface) && |s.materials| == |s.zInterface| + 1
  }

  /** The final sanity check: a ground plane, when present, does not lie
      above the deepest interface. */
  predicate GroundPlaneBelow(zInterface: seq<real>, zGP: Option<real>)
  {
    zGP.None? || |zInterface| == 0 || zGP.value <= zInterface[|zInterface| - 1]
  }

  /** A successfully constructed stack. */
  predicate WellFormed(s: Stack)
  {
    LayersConsistent(s) && GroundPlaneBelow(s.zInterface, s.zGP)
  }

  /** Appending a depth no greater than the last one keeps the list ordered. */
  lemma AppendKeepsNonIncreasing(zs: seq<real>, z: real)
    requires NonIncreasing(zs)
    requires |zs| == 0 || z <= zs[|zs| - 1]
    ensures NonIncreasing(zs + [z])
  {
  }

  /** The scan of `GetLayerIndex` started at interface `ni`: the first
      interface at or after `ni` that `z` lies strictly above, or
      `|zs|` when there is none. */
  function LayerIndexFrom(zs: seq<real>, z: real, ni: nat): (r: nat)
    requires ni <= |zs|
    ensures ni <= r <= |zs|
    ensures forall i :: ni <= i < r ==> z <= zs[i]
    ensures r < |zs| ==> z > zs[r]
    decreases |zs| - ni
  {
    if ni == |zs| then |zs|
    else if z > zs[ni] then ni
    else LayerIndexFrom(zs, z, ni + 1)
  }

  /** `GetLayerIndex(z)`: the smallest `ni` with `z > zInterface[ni]`, or
      `NumInterfaces` when `z` lies at or below every interface. */
  function LayerIndex(zs: seq<real>, z: real): (r: nat)
    ensures r <= |zs|
    ensures forall i :: 0 <= i < r ==> z <= zs[i]
    ensures r < |zs| ==> z > zs[r]
  {
    LayerIndexFrom(zs, z, 0)
  }

  /** Layer `i` as a depth range: below interface `i - 1` (inclusive; no
      bound for the top layer) and strictly above interface `i` (no bound
      for the bottom layer). */
  predicate InLayer(zs: seq<real>, i: nat, z: real)
  {
    && i <= |zs|
    && (i == 0 || z <= zs[i - 1])
    && (i == |zs| || z > zs[i])
  }

  /** For an ordered stack the lookup finds exactly the layer whose depth
      range contains `z`; in particular the ranges do not overlap. */
  lemma LayerIndexIsContainingLayer(zs: seq<real>, z: real, i: nat)
    requires NonIncreasing(zs)
    requires i <= |zs|
    ensures InLayer(zs, i, z) <==> LayerIndex(zs, z) == i
  {
    if InLayer(zs, i, z) && i > 0 {
      forall k | 0 <= k < i
        ensures z <= zs[k]
      {
        NonIncreasingOrdered(zs, k, i - 1);
      }
    }
  }

  /** A point higher up never lands in a deeper layer. This holds for any
      interface list, ordered or not, because the scan always starts at the
      top. */
  lemma LayerIndexMonotone(zs: seq<real>, z1: real, z2: real)
    requires z1 > z2
    ensures LayerIndex(zs, z1) <= LayerIndex(zs, z2)
  {
  }

  /** A point exactly on interface `k` belongs to a layer below it, never to
      the one above; when the next interface is strictly deeper it belongs to
      layer `k + 1`, the layer directly beneath. */
  lemma InterfacePointBelongsBelow(zs: seq<real>, k: nat)
    requires NonIncreasing(zs)
    requires k < |zs|
    ensures LayerIndex(zs, zs[k]) > k
    ensures k + 1 == |zs| || zs[k + 1] < zs[k] ==> LayerIndex(zs, zs[k]) == k + 1
  {
    forall m | 0 <= m <= k
      ensures zs[k] <= zs[m]
    {
      NonIncreasingOrdered(zs, m, k);
    }
  }
}

=== FILE: parser.dfy ===
/** The line-oriented reader of `LayeredSubstrate::Initialize`: one shared
    per-line state machine, run either over a standalone `.substrate` file
    or over a `SUBSTRATE ... ENDSUBSTRATE` section of a larger file. */
module Parser {
  import opened Results
  import opened Text
  import opened Layers

  /** One input line, as the tokens `Tokenize` found on it. */
  type Line = seq<string>

  /** Standalone mode knows its file name (used to prefix messages) and
      counts lines from 0; embedded mode continues the caller's counter. */
  datatype Mode = Standalone(fileName: string) | Embedded(startLine: int)
  {
    /** `LineNum` before the first line is read. */
    function FirstLineNum(): int
    {
      match this
      case Standalone(_) => 0
      case Embedded(n) => n
    }
  }

  /** Calls into code this model does not contain: `sscanf(token, "%le")`
      and the `ErrMsg` of `new MatProp(name)` (`None` for a known material). */
  datatype Oracles = Oracles(
    parseReal: string -> Option<real>,
    materialError: string -> Option<string>)

  /** What one line says, before any state is consulted. */
  datatype Stmt =
    | Blank                       // no tokens, or a `#` comment
    | EndMark                     // ENDSUBSTRATE, in any case
    | WrongTokenCount             // not exactly two tokens
    | MediumForbidden             // MEDIUM inside a SUBSTRATE section
    | Medium(name: string)        // MEDIUM <material>
    | BadZ(token: string)         // first token is not a number
    | GroundPlane(z: real)        // <z> GROUNDPLANE
    | Layer(z: real, name: string) // <z> <material>

  /** The tests of a line, in the order the source makes them. Each
      statement names the tokens it came from: a comment or empty line, a
      first token ENDSUBSTRATE (any case, whatever follows), exactly two
      tokens for every other statement, MEDIUM (any case) only outside a
      section, and otherwise a number followed by GROUNDPLANE (any case) or
      by a material name. */
  function Classify(mode: Mode, parseReal: string -> Option<real>, toks: Line): (r: Stmt)
    ensures r.Blank? <==> |toks| == 0 || (|toks[0]| > 0 && toks[0][0] == '#')
    ensures r.EndMark? <==> !r.Blank? && EqualsIgnoreCase(toks[0], "ENDSUBSTRATE")
    ensures r.WrongTokenCount? <==> !r.Blank? && !r.EndMark? && |toks| != 2
    ensures r.Medium? || r.MediumForbidden? || r.BadZ? || r.GroundPlane? || r.Layer? ==> |toks| == 2
    ensures r.Medium? || r.MediumForbidden? <==> |toks| == 2 && !r.Blank? && !r.EndMark? && EqualsIgnoreCase(toks[0], "MEDIUM")
    ensures r.MediumForbidden? ==> mode.Embedded?
    ensures r.Medium? ==> mode.Standalone? && r.name == toks[1]
    ensures r.BadZ? ==> r.token == toks[0] && parseReal(toks[0]).None? && !EqualsIgnoreCase(toks[0], "MEDIUM")
    ensures r.GroundPlane? ==> parseReal(toks[0]) == Some(r.z) && EqualsIgnoreCase(toks[1], "GROUNDPLANE")
    ensures r.Layer? ==>
      && parseReal(toks[0]) == Some(r.z) && r.name == toks[1]
      && !EqualsIgnoreCase(toks[0], "MEDIUM") && !EqualsIgnoreCase(toks[1], "GROUNDPLANE")
  {
    if |toks| == 0 || (|toks[0]| > 0 && toks[0][0] == '#') then Blank
    else if EqualsIgnoreCase(toks[0], "ENDSUBSTRATE") then EndMark
    else if |toks| != 2 then WrongTokenCount
    else if EqualsIgnoreCase(toks[0], "MEDIUM") then
      if mode.Embedded? then MediumForbidden else Medium(toks[1])
    else
      match parseReal(toks[0])
      case None => BadZ(toks[0])
      case Some(z) =>
        if EqualsIgnoreCase(toks[1], "GROUNDPLANE") then GroundPlane(z) else Layer(z, toks[1])
  }

  /** Where a message points: nowhere, `file:line: `, or `file: `. */
  datatype Location = Nowhere | AtLine(file: string, line: nat) | InFile(file: string)

  datatype ErrorKind =
    | SyntaxError
    | MediumInSection
    | Material(message: string)
    | BadZValue(token: string)
    | AbovePreviousLayer
    | MissingEndSubstrate
    | GroundPlaneAbove

  datatype ParseError = ParseError(loc: Location, kind: ErrorKind)

  /** `FileLine`: set only in standalone mode, to the current line. */
  function LineLocation(mode: Mode, lineNum: int): Location
  {
    if mode.Standalone? && lineNum >= 0 then AtLine(mode.fileName, lineNum) else Nowhere
  }

  /** The location as printed, before any buffer limit. */
  function LocationText(loc: Location): string
  {
    match loc
    case Nowhere => ""
    case AtLine(f, n) => f + ":" + NatToString(n) + ": "
    case InFile(f) => f + ": "
  }

  /** `FileLine` is a 100-character buffer filled by `snprintf`, so a
      location keeps at most its first 99 characters. */
  function Prefix(loc: Location): (p: string)
    ensures |p| <= 99
    ensures |p| <= |LocationText(loc)| && p == LocationText(loc)[..|p|]
    ensures |LocationText(loc)| < 100 ==> p == LocationText(loc)
    ensures |LocationText(loc)| >= 100 ==> |p| == 99
  {
    Truncate(LocationText(loc), 100)
  }

  /** The text stored in `ErrMsg`: the location prefix, then the
      description; a material error is passed on verbatim after the prefix. */
  function Message(e: ParseError): (m: string)
    ensures |m| >= |Prefix(e.loc)| && m[..|Prefix(e.loc)|] == Prefix(e.loc)
    ensures |LocationText(e.loc)| < 100 ==>
      |m| >= |LocationText(e.loc)| && m[..|LocationText(e.loc)|] == LocationText(e.loc)
    ensures !e.kind.Material? ==> |m| > |Prefix(e.loc)|
    ensures e.kind.Material? ==> m == Prefix(e.loc) + e.kind.message
  {
    Prefix(e.loc) +
    match e.kind
    case SyntaxError => "syntax error"
    case MediumInSection => "MEDIUM keyword forbidden in SUBSTRATE...ENDSUBSTRATE sections"
    case Material(m) => m
    case BadZValue(t) => "bad z-value " + t
    case AbovePreviousLayer => "z coordinate lies above previous layer"
    case MissingEndSubstrate => "expected ENDSUBSTRATE before end of file"
    case GroundPlaneAbove => "ground plane must lie below all dielectric layers"
  }

  /** The fields `Initialize` sets before reading: one VACUUM layer, no
      interfaces, no ground plane. */
  const Start: Stack := Stack([], ["VACUUM"], None)

  datatype StepResult = Continue(next: Stack) | Stop | Abort(error: ParseError)

  /** Apply one classified line (number `lineNum`) to the stack under
      construction. */
  function Step(mode: Mode, o: Oracles, st: Stack, s: Stmt, lineNum: int): (r: StepResult)
    requires LayersConsistent(st)
    ensures r.Continue? ==> LayersConsistent(r.next)
    ensures r.Continue? && !s.Layer? ==> r.next.zInterface == st.zInterface
    ensures r.Continue? && s.Layer? ==>
      r.next.zInterface == st.zInterface + [s.z] && r.next.materials == st.materials + [s.name]
    ensures r.Continue? ==> r.next.zGP == (if s.GroundPlane? then Some(s.z) else st.zGP)
    ensures s.Layer? && |st.zInterface| > 0 && s.z > st.zInterface[|st.zInterface| - 1] ==>
      r == Abort(ParseError(LineLocation(mode, lineNum), AbovePreviousLayer))
  {
    var here := LineLocation(mode, lineNum);
    match s
    case Blank => Continue(st)
    case EndMark => Stop
    case WrongTokenCount => Abort(ParseError(here, SyntaxError))
    case MediumForbidden => Abort(ParseError(Nowhere, MediumInSection))
    case Medium(name) =>
      (match o.materialError(name)
       case Some(m) => Abort(ParseError(here, Material(m)))
       case None => Continue(st.(materials := st.materials[0 := name])))
    case BadZ(t) => Abort(ParseError(here, BadZValue(t)))
    case GroundPlane(z) => Continue(st.(zGP := Some(z)))
    case Layer(z, name) =>
      if |st.zInterface| > 0 && z > st.zInterface[|st.zInterface| - 1] then
        Abort(ParseError(here, AbovePreviousLayer))
      else
        match o.materialError(name)
        case Some(m) => Abort(ParseError(here, Material(m)))
        case None =>
          AppendKeepsNonIncreasing(st.zInterface, z);
          Continue(Stack(st.zInterface + [z], st.materials + [name], st.zGP))
  }

  /** How the reading loop ended: at end of input or at ENDSUBSTRATE
      (`gotEnd`), with the final `LineNum`; or at the first error. */
  datatype LoopEnd = Finished(st: Stack, lineNum: int, gotEnd: bool) | Failed(error: ParseError)

  /** The `while (fgets(...))` loop: `lineNum` is `LineNum` before `lines[0]`. */
  function ReadLines(mode: Mode, o: Oracles, lines: seq<Line>, lineNum: int, st: Stack): (r: LoopEnd)
    requires LayersConsistent(st)
    ensures r.Finished? ==> LayersConsistent(r.st)
    ensures r.Finished? ==> st.zInterface <= r.st.zInterface
    ensures r.Finished? ==> lineNum <= r.lineNum <= lineNum + |lines|
    ensures r.Finished? && !r.gotEnd ==> r.lineNum == lineNum + |lines|
    decreases |lines|
  {
    if |lines| == 0 then Finished(st, lineNum, false)
    else
      var n := lineNum + 1;
      match Step(mode, o, st, Classify(mode, o.parseReal, lines[0]), n)
      case Stop => Finished(st, n, true)
      case Abort(e) => Failed(e)
      case Continue(next) => ReadLines(mode, o, lines[1..], n, next)
  }

  // ---------------------------------------------------------------------
  // A declarative reading of the same input, independent of the loop.
  // ---------------------------------------------------------------------

  /** Every line, classified. */
  function Stmts(mode: Mode, parseReal: string -> Option<real>, lines: seq<Line>): (ss: seq<Stmt>)
    ensures |ss| == |lines|
    ensures forall i :: 0 <= i < |lines| ==> ss[i] == Classify(mode, parseReal, lines[i])
  {
    if |lines| == 0 then [] else [Classify(mode, parseReal, lines[0])] + Stmts(mode, parseReal, lines[1..])
  }

  /** The statements before the first ENDSUBSTRATE. */
  function Body(ss: seq<Stmt>): (b: seq<Stmt>)
    ensures |b| <= |ss| && b == ss[..|b|]
    ensures forall i :: 0 <= i < |b| ==> !b[i].EndMark?
    ensures |b| < |ss| ==> ss[|b|].EndMark?
  {
    if |ss| == 0 || ss[0].EndMark? then [] else [ss[0]] + Body(ss[1..])
  }

  /** Some statement is ENDSUBSTRATE. */
  predicate HasEnd(ss: seq<Stmt>)
  {
    exists i :: 0 <= i < |ss| && ss[i].EndMark?
  }

  /** The depths of the layer statements, in order. */
  function Depths(ss: seq<Stmt>): seq<real>
  {
    if |ss| == 0 then [] else (if ss[0].Layer? then [ss[0].z] else []) + Depths(ss[1..])
  }

  /** The materials of the layer statements, in order. */
  function Names(ss: seq<Stmt>): seq<string>
  {
    if |ss| == 0 then [] else (if ss[0].Layer? then [ss[0].name] else []) + Names(ss[1..])
  }

  /** The depth of the last GROUNDPLANE statement, or `gp` if there is none. */
  function LastGroundPlane(ss: seq<Stmt>, gp: Option<real>): Option<real>
  {
    if |ss| == 0 then gp else LastGroundPlane(ss[1..], if ss[0].GroundPlane? then Some(ss[0].z) else gp)
  }

  /** The material of the last MEDIUM statement, or `top` if there is none. */
  function TopMedium(ss: seq<Stmt>, top: string): string
  {
    if |ss| == 0 then top else TopMedium(ss[1..], if ss[0].Medium? then ss[0].name else top)
  }

  /** A statement the loop accepts on its own (ordering aside). */
  predicate StmtOk(o: Oracles, s: Stmt)
  {
    match s
    case Blank => true
    case GroundPlane(_) => true
    case Medium(name) => o.materialError(name).None?
    case Layer(_, name) => o.materialError(name).None?
    case _ => false
  }

  predicate AllOk(o: Oracles, ss: seq<Stmt>)
  {
    forall i :: 0 <= i < |ss| ==> StmtOk(o, ss[i])
  }

  lemma AllOkCons(o: Oracles, s: Stmt, b: seq<Stmt>)
    ensures AllOk(o, [s] + b) <==> StmtOk(o, s) && AllOk(o, b)
  {
    var t := [s] + b;
    if AllOk(o, t) {
      assert StmtOk(o, t[0]);
      forall i | 0 <= i < |b| ensures StmtOk(o, b[i]) {
        assert t[i + 1] == b[i];
      }
    }
    if StmtOk(o, s) && AllOk(o, b) {
      forall i | 0 <= i < |t| ensures StmtOk(o, t[i]) {
        if i > 0 { assert t[i] == b[i - 1]; }
      }
    }
  }

  lemma HasEndCons(ss: seq<Stmt>)
    requires |ss| > 0
    ensures HasEnd(ss) <==> ss[0].EndMark? || HasEnd(ss[1..])
  {
  }

  /** The layer lists of `[s] + b'` are those of `b'` with `s`'s layer, if
      it is one, in front. */
  lemma LayerListsCons(s: Stmt, b': seq<Stmt>)
    ensures Depths([s] + b') == (if s.Layer? then [s.z] else []) + Depths(b')
    ensures Names([s] + b') == (if s.Layer? then [s.name] else []) + Names(b')
  {
    assert ([s] + b')[1..] == b';
  }

  /** How an accepted line moves the materials: MEDIUM replaces the top one,
      a layer line appends one below the rest, anything else keeps them. */
  lemma StepMaterials(mode: Mode, o: Oracles, st: Stack, s: Stmt, n: int, next: Stack)
    requires LayersConsistent(st)
    requires Step(mode, o, st, s, n) == Continue(next)
    ensures |next.materials| > 0
    ensures next.materials[0] == (if s.Medium? then s.name else st.materials[0])
    ensures next.materials[1..] == st.materials[1..] + (if s.Layer? then [s.name] else [])
  {
  }

  /** An accepted, non-terminating line is acceptable on its own. */
  lemma ContinueIsOk(mode: Mode, o: Oracles, st: Stack, s: Stmt, n: int, next: Stack, b': seq<Stmt>)
    requires LayersConsistent(st)
    requires Step(mode, o, st, s, n) == Continue(next)
    ensures StmtOk(o, s) && !s.EndMark?
    ensures AllOk(o, [s] + b') <==> AllOk(o, b')
  {
    AllOkCons(o, s, b');
  }

  /** An accepted line moves the stack's depths exactly as it moves the
      declarative ones. */
  lemma ContinueDepths(mode: Mode, o: Oracles, st: Stack, s: Stmt, n: int, next: Stack, b': seq<Stmt>)
    requires LayersConsistent(st)
    requires Step(mode, o, st, s, n) == Continue(next)
    ensures st.zInterface + Depths([s] + b') == next.zInterface + Depths(b')
  {
    LayerListsCons(s, b');
    var ext := if s.Layer? then [s.z] else [];
    assert next.zInterface == st.zInterface + ext;
    assert st.zInterface + (ext + Depths(b')) == (st.zInterface + ext) + Depths(b');
  }

  /** An accepted line moves the stack's materials exactly as it moves the
      declarative ones. */
  lemma ContinueMaterials(mode: Mode, o: Oracles, st: Stack, s: Stmt, n: int, next: Stack, b': seq<Stmt>)
    requires LayersConsistent(st)
    requires Step(mode, o, st, s, n) == Continue(next)
    ensures [TopMedium([s] + b', st.materials[0])] + st.materials[1..] + Names([s] + b')
         == [TopMedium(b', next.materials[0])] + next.materials[1..] + Names(b')
  {
    assert ([s] + b')[1..] == b';
    LayerListsCons(s, b');
    StepMaterials(mode, o, st, s, n, next);
    var ext := if s.Layer? then [s.name] else [];
    var top := TopMedium(b', next.materials[0]);
    assert TopMedium([s] + b', st.materials[0]) == top;
    assert [top] + st.materials[1..] + (ext + Names(b')) == [top] + (st.materials[1..] + ext) + Names(b');
  }

  /** One accepted, non-terminating line changes the declarative reading of
      the remaining input exactly as `Step` changed the stack. */
  lemma ContinueAgrees(mode: Mode, o: Oracles, st: Stack, s: Stmt, n: int, next: Stack, b': seq<Stmt>)
    requires LayersConsistent(st)
    requires Step(mode, o, st, s, n) == Continue(next)
    ensures StmtOk(o, s) && !s.EndMark?
    ensures AllOk(o, [s] + b') <==> AllOk(o, b')
    ensures st.zInterface + Depths([s] + b') == next.zInterface + Depths(b')
    ensures [TopMedium([s] + b', st.materials[0])] + st.materials[1..] + Names([s] + b')
         == [TopMedium(b', next.materials[0])] + next.materials[1..] + Names(b')
    ensures LastGroundPlane([s] + b', st.zGP) == LastGroundPlane(b', next.zGP)
  {
    assert ([s] + b')[1..] == b';
    ContinueIsOk(mode, o, st, s, n, next, b');
    ContinueDepths(mode, o, st, s, n, next, b');
    ContinueMaterials(mode, o, st, s, n, next, b');
  }

  /** A line the loop rejects makes the declarative reading reject too. */
  lemma AbortAgrees(mode: Mode, o: Oracles, st: Stack, s: Stmt, n: int, e: ParseError, b': seq<Stmt>)
    requires LayersConsistent(st)
    requires Step(mode, o, st, s, n) == Abort(e)
    ensures !(AllOk(o, [s] + b') && NonIncreasing(st.zInterface + Depths([s] + b')))
  {
    var b := [s] + b';
    assert b[1..] == b';
    AllOkCons(o, s, b');
    if StmtOk(o, s) {
      assert s.Layer?;
      var k := |st.zInterface|;
      assert Depths(b) == [s.z] + Depths(b');
      assert (st.zInterface + Depths(b))[k] == s.z;
      assert (st.zInterface + Depths(b))[k - 1] == st.zInterface[k - 1];
    }
  }

  /** What the loop's outcome `r` on `lines` means in terms of the
      declarative reading, starting from stack `st` at line `lineNum`. */
  predicate Agrees(mode: Mode, o: Oracles, lines: seq<Line>, lineNum: int, st: Stack, r: LoopEnd)
    requires LayersConsistent(st)
  {
    var ss := Stmts(mode, o.parseReal, lines);
    var b := Body(ss);
    && (r.Finished? <==> AllOk(o, b) && NonIncreasing(st.zInterface + Depths(b)))
    && (r.Finished? ==>
          && r.st.zInterface == st.zInterface + Depths(b)
          && r.st.materials == [TopMedium(b, st.materials[0])] + st.materials[1..] + Names(b)
          && r.st.zGP == LastGroundPlane(b, st.zGP)
          && r.gotEnd == HasEnd(ss)
          && r.lineNum == lineNum + |b| + (if r.gotEnd then 1 else 0))
  }

  lemma AgreesAtEnd(mode: Mode, o: Oracles, lines: seq<Line>, lineNum: int, st: Stack)
    requires LayersConsistent(st)
    requires |lines| == 0 || Classify(mode, o.parseReal, lines[0]) == EndMark
    ensures Agrees(mode, o, lines, lineNum, st, ReadLines(mode, o, lines, lineNum, st))
  {
    var ss := Stmts(mode, o.parseReal, lines);
    assert Body(ss) == [];
    if |lines| > 0 {
      assert HasEnd(ss) by { assert ss[0].EndMark?; }
    }
    assert st.materials == [st.materials[0]] + st.materials[1..];
    assert st.zInterface + [] == st.zInterface;
  }

  lemma AgreesOnAbort(mode: Mode, o: Oracles, lines: seq<Line>, lineNum: int, st: Stack, e: ParseError)
    requires LayersConsistent(st)
    requires |lines| > 0
    requires Step(mode, o, st, Classify(mode, o.parseReal, lines[0]), lineNum + 1) == Abort(e)
    ensures Agrees(mode, o, lines, lineNum, st, ReadLines(mode, o, lines, lineNum, st))
  {
    var ss := Stmts(mode, o.parseReal, lines);
    assert ss[1..] == Stmts(mode, o.parseReal, lines[1..]);
    AbortAgrees(mode, o, st, ss[0], lineNum + 1, e, Body(ss[1..]));
  }

  lemma AgreesOnContinue(mode: Mode, o: Oracles, lines: seq<Line>, lineNum: int, st: Stack, next: Stack)
    requires LayersConsistent(st)
    requires |lines| > 0
    requires Step(mode, o, st, Classify(mode, o.parseReal, lines[0]), lineNum + 1) == Continue(next)
    requires Agrees(mode, o, lines[1..], lineNum + 1, next, ReadLines(mode, o, lines[1..], lineNum + 1, next))
    ensures Agrees(mode, o, lines, lineNum, st, ReadLines(mode, o, lines, lineNum, st))
  {
    var ss := Stmts(mode, o.parseReal, lines);
    var rest := Stmts(mode, o.parseReal, lines[1..]);
    assert ss[1..] == rest;
    HasEndCons(ss);
    ContinueAgrees(mode, o, st, ss[0], lineNum + 1, next, Body(rest));
  }

  /** The loop finishes exactly when every statement before the first
      ENDSUBSTRATE is acceptable and the depths, appended to those already
      present, never increase; it then holds the depths, materials and
      ground plane the declarative reading names, and has read
      `|Body| (+1 for ENDSUBSTRATE)` lines. */
  lemma {:induction false} ReadLinesMeaning(mode: Mode, o: Oracles, lines: seq<Line>, lineNum: int, st: Stack)
    requires LayersConsistent(st)
    ensures Agrees(mode, o, lines, lineNum, st, ReadLines(mode, o, lines, lineNum, st))
    decreases |lines|
  {
    if |lines| == 0 {
      AgreesAtEnd(mode, o, lines, lineNum, st);
    } else {
      match Step(mode, o, st, Classify(mode, o.parseReal, lines[0]), lineNum + 1)
      case Stop => AgreesAtEnd(mode, o, lines, lineNum, st);
      case Abort(e) => AgreesOnAbort(mode, o, lines, lineNum, st, e);
      case Continue(next) =>
        ReadLinesMeaning(mode, o, lines[1..], lineNum + 1, next);
        AgreesOnContinue(mode, o, lines, lineNum, st, next);
    }
  }

  /** Reading one more line after input that ended without ENDSUBSTRATE
      is one more `Step` on the stack read so far. */
  lemma {:induction false} ReadLinesExtend(mode: Mode, o: Oracles, lines: seq<Line>, l: Line, lineNum: int, st: Stack)
    requires LayersConsistent(st)
    requires ReadLines(mode, o, lines, lineNum, st).Finished?
    requires !ReadLines(mode, o, lines, lineNum, st).gotEnd
    ensures var r := ReadLines(mode, o, lines, lineNum, st);
            var n := r.lineNum + 1;
            ReadLines(mode, o, lines + [l], lineNum, st) ==
              match Step(mode, o, r.st, Classify(mode, o.parseReal, l), n)
              case Stop => Finished(r.st, n, true)
              case Abort(e) => Failed(e)
              case Continue(next) => Finished(next, n, false)
    decreases |lines|
  {
    if |lines| == 0 {
      assert [] + [l] == [l];
      assert [l][1..] == [];
    } else {
      assert (lines + [l])[0] == lines[0];
      assert (lines + [l])[1..] == lines[1..] + [l];
      var next := Step(mode, o, st, Classify(mode, o.parseReal, lines[0]), lineNum + 1).next;
      ReadLinesExtend(mode, o, lines[1..], l, lineNum + 1, next);
    }
  }
  /** A line whose step fails ends the read with that error. */
  lemma ReadLinesExtendAbort(mode: Mode, o: Oracles, lines: seq<Line>, l: Line, lineNum: int, st: Stack, e: ParseError)
    requires LayersConsistent(st)
    requires ReadLines(mode, o, lines, lineNum, st).Finished?
    requires !ReadLines(mode, o, lines, lineNum, st).gotEnd
    requires var r := ReadLines(mode, o, lines, lineNum, st);
             Step(mode, o, r.st, Classify(mode, o.parseReal, l), r.lineNum + 1) == Abort(e)
    ensures ReadLines(mode, o, lines + [l], lineNum, st) == Failed(e)
  {
    ReadLinesExtend(mode, o, lines, l, lineNum, st);
  }


  /** Once a line reads as ENDSUBSTRATE, nothing after it is looked at. */
  lemma {:induction false} ReadLinesStopsAtEnd(mode: Mode, o: Oracles, a: seq<Line>, e: Line, c: seq<Line>, c': seq<Line>, lineNum: int, st: Stack)
    requires LayersConsistent(st)
    requires Classify(mode, o.parseReal, e) == EndMark
    ensures ReadLines(mode, o, a + [e] + c, lineNum, st) == ReadLines(mode, o, a + [e] + c', lineNum, st)
    decreases |a|
  {
    if |a| == 0 {
      assert (a + [e] + c)[0] == e && (a + [e] + c')[0] == e;
    } else {
      assert (a + [e] + c)[0] == a[0] && (a + [e] + c')[0] == a[0];
      assert (a + [e] + c)[1..] == a[1..] + [e] + c;
      assert (a + [e] + c')[1..] == a[1..] + [e] + c';
      match Step(mode, o, st, Classify(mode, o.parseReal, a[0]), lineNum + 1)
      case Continue(next) =>
        ReadLinesStopsAtEnd(mode, o, a[1..], e, c, c', lineNum + 1, next);
      case _ =>
    }
  }

  /** A layer line below (or level with) the last interface, naming a known
      material, appends exactly one interface and one layer and changes
      nothing else. */
  lemma LayerLineAppends(mode: Mode, o: Oracles, lines: seq<Line>, l: Line, st: Stack, z: real, name: string)
    requires LayersConsistent(st)
    requires ReadLines(mode, o, lines, mode.FirstLineNum(), st).Finished?
    requires !ReadLines(mode, o, lines, mode.FirstLineNum(), st).gotEnd
    requires Classify(mode, o.parseReal, l) == Layer(z, name)
    requires o.materialError(name).None?
    requires var zi := ReadLines(mode, o, lines, mode.FirstLineNum(), st).st.zInterface;
             |zi| == 0 || z <= zi[|zi| - 1]
    ensures var r := ReadLines(mode, o, lines, mode.FirstLineNum(), st);
            ReadLines(mode, o, lines + [l], mode.FirstLineNum(), st)
              == Finished(Stack(r.st.zInterface + [z], r.st.materials + [name], r.st.zGP), r.lineNum + 1, false)
  {
    ReadLinesExtend(mode, o, lines, l, mode.FirstLineNum(), st);
    var r := ReadLines(mode, o, lines, mode.FirstLineNum(), st);
    assert Step(mode, o, r.st, Layer(z, name), r.lineNum + 1)
        == Continue(Stack(r.st.zInterface + [z], r.st.materials + [name], r.st.zGP));
  }

  /** A layer line above the last interface is refused, at that line, before
      its material is looked up. */
  lemma LayerLineAboveRejected(mode: Mode, o: Oracles, lines: seq<Line>, l: Line, st: Stack, z: real, name: string)
    requires LayersConsistent(st)
    requires ReadLines(mode, o, lines, mode.FirstLineNum(), st).Finished?
    requires !ReadLines(mode, o, lines, mode.FirstLineNum(), st).gotEnd
    requires Classify(mode, o.parseReal, l) == Layer(z, name)
    requires var zi := ReadLines(mode, o, lines, mode.FirstLineNum(), st).st.zInterface;
             |zi| > 0 && z > zi[|zi| - 1]
    ensures var r := ReadLines(mode, o, lines, mode.FirstLineNum(), st);
            ReadLines(mode, o, lines + [l], mode.FirstLineNum(), st)
              == Failed(ParseError(LineLocation(mode, r.lineNum + 1), AbovePreviousLayer))
  {
    var r := ReadLines(mode, o, lines, mode.FirstLineNum(), st);
    var e := ParseError(LineLocation(mode, r.lineNum + 1), AbovePreviousLayer);
    assert Step(mode, o, r.st, Classify(mode, o.parseReal, l), r.lineNum + 1) == Abort(e);
    ReadLinesExtendAbort(mode, o, lines, l, mode.FirstLineNum(), st, e);
  }

  /** A GROUNDPLANE line replaces the ground-plane depth (a later one wins)
      and adds no interface or layer. */
  lemma GroundPlaneLineEffect(mode: Mode, o: Oracles, lines: seq<Line>, l: Line, st: Stack, z: real)
    requires LayersConsistent(st)
    requires ReadLines(mode, o, lines, mode.FirstLineNum(), st).Finished?
    requires !ReadLines(mode, o, lines, mode.FirstLineNum(), st).gotEnd
    requires Classify(mode, o.parseReal, l) == GroundPlane(z)
    ensures var r := ReadLines(mode, o, lines, mode.FirstLineNum(), st);
            ReadLines(mode, o, lines + [l], mode.FirstLineNum(), st)
              == Finished(r.st.(zGP := Some(z)), r.lineNum + 1, false)
  {
    ReadLinesExtend(mode, o, lines, l, mode.FirstLineNum(), st);
  }

  /** MEDIUM, in any letter case, is refused inside a SUBSTRATE section
      before any material is looked up, with no line prefix. */
  lemma MediumRefusedInSection(startLine: int, o: Oracles, lines: seq<Line>, l: Line, st: Stack)
    requires LayersConsistent(st)
    requires ReadLines(Embedded(startLine), o, lines, startLine, st).Finished?
    requires !ReadLines(Embedded(startLine), o, lines, startLine, st).gotEnd
    requires |l| == 2 && EqualsIgnoreCase(l[0], "MEDIUM")
    ensures ReadLines(Embedded(startLine), o, lines + [l], startLine, st)
            == Failed(ParseError(Nowhere, MediumInSection))
  {
    assert l[0][0] != '#' by { assert LowerChar(l[0][0]) == 'm'; }
    ReadLinesExtend(Embedded(startLine), o, lines, l, startLine, st);
  }

  /** In a standalone file MEDIUM, in any letter case, replaces layer 0's
      material when the material is known, and otherwise fails at that line
      with the material database's message. */
  lemma MediumLineEffect(file: string, o: Oracles, lines: seq<Line>, l: Line, st: Stack)
    requires LayersConsistent(st)
    requires ReadLines(Standalone(file), o, lines, 0, st).Finished?
    requires !ReadLines(Standalone(file), o, lines, 0, st).gotEnd
    requires |l| == 2 && EqualsIgnoreCase(l[0], "MEDIUM")
    ensures var r := ReadLines(Standalone(file), o, lines, 0, st);
            var r' := ReadLines(Standalone(file), o, lines + [l], 0, st);
            && (o.materialError(l[1]).None? ==>
                  r' == Finished(r.st.(materials := [l[1]] + r.st.materials[1..]), r.lineNum + 1, false))
            && (o.materialError(l[1]).Some? ==>
                  r' == Failed(ParseError(LineLocation(Standalone(file), r.lineNum + 1),
                                          Material(o.materialError(l[1]).value))))
  {
    assert l[0][0] != '#' by { assert LowerChar(l[0][0]) == 'm'; }
    ReadLinesExtend(Standalone(file), o, lines, l, 0, st);
    var r := ReadLines(Standalone(file), o, lines, 0, st);
    assert r.st.materials[0 := l[1]] == [l[1]] + r.st.materials[1..];
  }

  /** A layer line at or below the last interface whose material the
      database does not know fails at that line, passing the database's
      message on verbatim. */
  lemma LayerLineUnknownMaterial(mode: Mode, o: Oracles, lines: seq<Line>, l: Line, st: Stack, z: real, name: string, m: string)
    requires LayersConsistent(st)
    requires ReadLines(mode, o, lines, mode.FirstLineNum(), st).Finished?
    requires !ReadLines(mode, o, lines, mode.FirstLineNum(), st).gotEnd
    requires Classify(mode, o.parseReal, l) == Layer(z, name)
    requires o.materialError(name) == Some(m)
    requires var zi := ReadLines(mode, o, lines, mode.FirstLineNum(), st).st.zInterface;
             |zi| == 0 || z <= zi[|zi| - 1]
    ensures var r := ReadLines(mode, o, lines, mode.FirstLineNum(), st);
            ReadLines(mode, o, lines + [l], mode.FirstLineNum(), st)
              == Failed(ParseError(LineLocation(mode, r.lineNum + 1), Material(m)))
  {
    var r := ReadLines(mode, o, lines, mode.FirstLineNum(), st);
    var e := ParseError(LineLocation(mode, r.lineNum + 1), Material(m));
    assert Step(mode, o, r.st, Classify(mode, o.parseReal, l), r.lineNum + 1) == Abort(e);
    ReadLinesExtendAbort(mode, o, lines, l, mode.FirstLineNum(), st, e);
  }

  /** The line grammar, one line at a time: blank and `#` lines change
      nothing, ENDSUBSTRATE in any case ends the read, any other line must
      have exactly two tokens, and a first token that is neither MEDIUM nor
      a number is a bad z-value. */
  lemma LineSyntaxEffect(mode: Mode, o: Oracles, lines: seq<Line>, l: Line, st: Stack)
    requires LayersConsistent(st)
    requires ReadLines(mode, o, lines, mode.FirstLineNum(), st).Finished?
    requires !ReadLines(mode, o, lines, mode.FirstLineNum(), st).gotEnd
    ensures var r := ReadLines(mode, o, lines, mode.FirstLineNum(), st);
            var r' := ReadLines(mode, o, lines + [l], mode.FirstLineNum(), st);
            var n := r.lineNum + 1;
            var comment := |l| == 0 || (|l[0]| > 0 && l[0][0] == '#');
            && (comment ==> r' == Finished(r.st, n, false))
            && (!comment && EqualsIgnoreCase(l[0], "ENDSUBSTRATE") ==> r' == Finished(r.st, n, true))
            && (!comment && !EqualsIgnoreCase(l[0], "ENDSUBSTRATE") && |l| != 2 ==>
                  r' == Failed(ParseError(LineLocation(mode, n), SyntaxError)))
            && (!comment && !EqualsIgnoreCase(l[0], "ENDSUBSTRATE") && |l| == 2
                && !EqualsIgnoreCase(l[0], "MEDIUM") && o.parseReal(l[0]).None? ==>
                  r' == Failed(ParseError(LineLocation(mode, n), BadZValue(l[0]))))
  {
    ReadLinesExtend(mode, o, lines, l, mode.FirstLineNum(), st);
  }

  /** A two-token line whose first token is neither a keyword nor a comment
      but scans as a number, followed by GROUNDPLANE in any case, sets the
      ground plane to that number and changes nothing else. */
  lemma GroundPlaneTokensEffect(mode: Mode, o: Oracles, lines: seq<Line>, l: Line, st: Stack, z: real)
    requires LayersConsistent(st)
    requires ReadLines(mode, o, lines, mode.FirstLineNum(), st).Finished?
    requires !ReadLines(mode, o, lines, mode.FirstLineNum(), st).gotEnd
    requires |l| == 2 && !(|l[0]| > 0 && l[0][0] == '#')
    requires !EqualsIgnoreCase(l[0], "ENDSUBSTRATE") && !EqualsIgnoreCase(l[0], "MEDIUM")
    requires o.parseReal(l[0]) == Some(z) && EqualsIgnoreCase(l[1], "GROUNDPLANE")
    ensures var r := ReadLines(mode, o, lines, mode.FirstLineNum(), st);
            ReadLines(mode, o, lines + [l], mode.FirstLineNum(), st)
              == Finished(r.st.(zGP := Some(z)), r.lineNum + 1, false)
  {
    GroundPlaneLineEffect(mode, o, lines, l, st, z);
  }
}

=== FILE: results.dfy ===
/** Optional values and success-or-error results, used in place of the
    sentinel values and the `ErrMsg` field of `LayeredSubstrate`. */
module Results {

  /** A value that may be absent (a missing ground plane, an unset override). */
  datatype Option<+T> = None | Some(value: T)
  {
    /** The carried value, or `default` when there is none. */
    function GetOr(default: T): (r: T)
      ensures Some? ==> r == value
      ensures None? ==> r == default
    {
      match this
      case Some(v) => v
      case None => default
    }
  }

  /** Either a constructed value or the error that prevented its construction. */
  datatype Result<+T, +E> = Success(value: T) | Failure(error: E)
}

=== FILE: scenarios.dfy ===
/** Worked examples: small substrate descriptions read with a fixed number
    reader and a material database that knows SiO2 and Silicon. */
module Scenarios {
  import opened Results
  import opened Text
  import opened Layers
  import opened Parser
  import opened Config
  import opened Substrate

  /** Reads exactly the literals used below. */
  function ReadNumber(s: string): Option<real>
  {
    if s == "-1.0" then Some(-1.0)
    else if s == "-2.0" then Some(-2.0)
    else if s == "-0.5" then Some(-0.5)
    else if s == "0.0" then Some(0.0)
    else None
  }

  function UnknownMaterial(name: string): Option<string>
  {
    if name == "SiO2" || name == "Silicon" || name == "VACUUM" then None
    else Some("unknown material " + name)
  }

  const Db := Oracles(ReadNumber, UnknownMaterial)

  /** The lookup on interfaces at -1 and -2 places points above, on and
      between and below them. */
  lemma TwoLayerLookup()
    ensures LayerIndex([-1.0, -2.0], 0.5) == 0
    ensures LayerIndex([-1.0, -2.0], -1.5) == 1
    ensures LayerIndex([-1.0, -2.0], -3.0) == 2
    ensures LayerIndex([-1.0, -2.0], -1.0) == 1
  {
  }

  /** Two layers listed top to bottom: two interfaces, three layers, and the
      lookup places points above, between and below them. */
  lemma TwoLayerStack()
    ensures var r := Initialize(Standalone("a.substrate"), Db, NoOverrides, [["-1.0", "SiO2"], ["-2.0", "Silicon"]]);
            && r.result.Success?
            && r.result.value.stack == Stack([-1.0, -2.0], ["VACUUM", "SiO2", "Silicon"], None)
            && LayerIndex(r.result.value.stack.zInterface, 0.5) == 0
            && LayerIndex(r.result.value.stack.zInterface, -1.5) == 1
            && LayerIndex(r.result.value.stack.zInterface, -3.0) == 2
            && LayerIndex(r.result.value.stack.zInterface, -1.0) == 1
  {
    TwoLayerLookup();
  }

  /** The same two layers as a SUBSTRATE section: accepted only with its
      ENDSUBSTRATE, after which the caller's counter stands on that line. */
  lemma TwoLayerSection()
    ensures var r := Initialize(Embedded(10), Db, NoOverrides, [["-1.0", "SiO2"], ["-2.0", "Silicon"], ["endsubstrate"]]);
            r.result.Success? && r.counterOut == Some(13)
            && r.result.value.stack.NumLayers() == 3
    ensures Initialize(Embedded(10), Db, NoOverrides, [["-1.0", "SiO2"], ["-2.0", "Silicon"]]).result
            == Failure(ParseError(Nowhere, MissingEndSubstrate))
  {
    var two := [["-1.0", "SiO2"], ["-2.0", "Silicon"]];
    assert ReadLines(Embedded(10), Db, two, 10, Start)
        == Finished(Stack([-1.0, -2.0], ["VACUUM", "SiO2", "Silicon"], None), 12, false);
    assert Classify(Embedded(10), ReadNumber, ["endsubstrate"]) == EndMark by {
      LowerCaseKeyword();
    }
    assert two + [["endsubstrate"]] == [["-1.0", "SiO2"], ["-2.0", "Silicon"], ["endsubstrate"]];
    ReadLinesExtend(Embedded(10), Db, two, ["endsubstrate"], 10, Start);
  }

  /** strcasecmp ignores case: the lower-case keyword matches. */
  lemma LowerCaseKeyword()
    ensures EqualsIgnoreCase("endsubstrate", "ENDSUBSTRATE")
  {
  }

  /** A lone ground plane: no interfaces, one layer, ground plane at 0. */
  lemma GroundPlaneOnly()
    ensures var r := Initialize(Standalone("gp.substrate"), Db, NoOverrides, [["0.0", "GROUNDPLANE"]]);
            && r.result.Success?
            && r.result.value.stack == Stack([], ["VACUUM"], Some(0.0))
  {
  }

  /** Depths listed bottom to top: the second line is refused. */
  lemma AscendingDepths()
    ensures Initialize(Standalone("c.substrate"), Db, NoOverrides, [["-1.0", "Silicon"], ["-0.5", "SiO2"]]).result
            == Failure(ParseError(AtLine("c.substrate", 2), AbovePreviousLayer))
  {
  }

  /** A relative-tolerance override of 1e-6 is what the settings hold. */
  lemma RelTolOverride()
    ensures Configure(NoOverrides.(qRelTol := Some(0.000001))).qRelTol == 0.000001
    ensures Configure(NoOverrides.(qRelTol := Some(0.000001))).qAbsTol == 0.00000001
  {
  }

  /** A section whose ground plane lies above its layer still moves the
      caller's counter past ENDSUBSTRATE, although construction fails. */
  lemma GroundPlaneAboveSection()
    ensures var r := FromSection([["-1.0", "SiO2"], ["0.0", "GROUNDPLANE"], ["ENDSUBSTRATE"]], 10, Db, NoOverrides);
            r.0.Failure? && r.1 == 13
  {
  }
}

=== FILE: substrate.dfy ===
/** `LayeredSubstrate`: the layer stack read by `Initialize`, its frequency
    cache and its evaluation settings, with the two constructor entry
    points and the per-object queries. */
module Substrate {
  import opened Results
  import opened Layers
  import opened Parser
  import opened EpsMuCache
  import opened Config

  /** A successfully constructed substrate. `zSGFI`/`omegaSGFI` key the
      scalar Green's-function interpolator, which does not exist yet. */
  datatype Substrate = Substrate(
    stack: Stack,
    cache: Cache,
    config: Config,
    zSGFI: real,
    omegaSGFI: Complex,
    hasInterpolator: bool)

  /** Everything `Initialize` leaves behind: the object or its `ErrMsg`, the
      value written back through `pLineNum` (if any), and the warning about a
      superfluous ENDSUBSTRATE (if any). */
  datatype InitOutcome = InitOutcome(
    result: Result<Substrate, ParseError>,
    counterOut: Option<int>,
    warning: Option<string>)

  /** The fields set after a successful read. */
  function Build(st: Stack, env: Overrides): Substrate
  {
    Substrate(st, InitialCache(|st.materials|), Configure(env), 0.0, Complex(0.0, 0.0), false)
  }

  /** `LayeredSubstrate::Initialize`: read the lines, check the terminator
      rule of the mode, write the line counter back in embedded mode, run the
      ground-plane sanity check, then fill in the cache and settings. */
  function Initialize(mode: Mode, o: Oracles, env: Overrides, lines: seq<Line>): (r: InitOutcome)
    ensures r.result.Success? ==> WellFormed(r.result.value.stack)
    ensures r.result.Success? ==> r.result.value.config == Configure(env)
    ensures r.result.Success? ==>
      var s := r.result.value;
      && |s.cache.entries| == s.stack.NumLayers()
      && (forall n :: 0 <= n < |s.cache.entries| ==> s.cache.entries[n].None?)
      && s.cache.omega.re < 0.0
      && !s.hasInterpolator
    ensures mode.Standalone? ==> r.counterOut.None?
    ensures mode.Embedded? ==> r.warning.None?
    ensures mode.Embedded? && r.result.Success? ==> r.counterOut.Some?
  {
    match ReadLines(mode, o, lines, mode.FirstLineNum(), Start)
    case Failed(e) => InitOutcome(Failure(e), None, None)
    case Finished(st, n, gotEnd) =>
      if mode.Embedded? && !gotEnd then
        InitOutcome(Failure(ParseError(Nowhere, MissingEndSubstrate)), None, None)
      else
        var warning :=
          if mode.Standalone? && gotEnd
          then Some(LocationText(LineLocation(mode, n)) + "ENDSUBSTRATE is not needed in .substrate files")
          else None;
        var counter := if mode.Embedded? then Some(n) else None;
        var fileLoc := if mode.Standalone? then InFile(mode.fileName) else Nowhere;
        if !GroundPlaneBelow(st.zInterface, st.zGP) then
          InitOutcome(Failure(ParseError(fileLoc, GroundPlaneAbove)), counter, warning)
        else
          InitOutcome(Success(Build(st, env)), counter, warning)
  }

  /** The declarative acceptance condition: every statement before the
      first ENDSUBSTRATE is acceptable, the layer depths never increase, a
      SUBSTRATE section is terminated, and the last ground plane (if any)
      lies at or below the deepest interface. */
  predicate Accepts(mode: Mode, o: Oracles, lines: seq<Line>)
  {
    var ss := Stmts(mode, o.parseReal, lines);
    var b := Body(ss);
    && AllOk(o, b)
    && NonIncreasing(Depths(b))
    && (mode.Embedded? ==> HasEnd(ss))
    && GroundPlaneBelow(Depths(b), LastGroundPlane(b, None))
  }

  /** The stack the declarative reading describes: the layer statements'
      depths and materials below the last MEDIUM (or VACUUM), and the last
      ground plane. */
  function Described(mode: Mode, o: Oracles, lines: seq<Line>): Stack
  {
    var b := Body(Stmts(mode, o.parseReal, lines));
    Stack(Depths(b), [TopMedium(b, "VACUUM")] + Names(b), LastGroundPlane(b, None))
  }

  /** Construction succeeds exactly on accepted input, and then yields the
      described stack with default cache and configured settings. */
  lemma InitializeMeaning(mode: Mode, o: Oracles, env: Overrides, lines: seq<Line>)
    ensures var r := Initialize(mode, o, env, lines);
            && (r.result.Success? <==> Accepts(mode, o, lines))
            && (r.result.Success? ==> r.result.value == Build(Described(mode, o, lines), env))
  {
    ReadLinesMeaning(mode, o, lines, mode.FirstLineNum(), Start);
    var b := Body(Stmts(mode, o.parseReal, lines));
    assert Start.zInterface + Depths(b) == Depths(b);
    assert Start.materials[1..] == [];
    assert [TopMedium(b, "VACUUM")] + [] + Names(b) == [TopMedium(b, "VACUUM")] + Names(b);
  }

  /** Inside a SUBSTRATE section the upper half-space is always VACUUM,
      since MEDIUM is refused there. */
  lemma EmbeddedTopIsVacuum(startLine: int, o: Oracles, env: Overrides, lines: seq<Line>)
    ensures var r := Initialize(Embedded(startLine), o, env, lines);
            r.result.Success? ==> r.result.value.stack.materials[0] == "VACUUM"
  {
    var mode := Embedded(startLine);
    InitializeMeaning(mode, o, env, lines);
    var b := Body(Stmts(mode, o.parseReal, lines));
    TopMediumWithoutMedium(b, "VACUUM");
  }

  lemma {:induction false} TopMediumWithoutMedium(ss: seq<Stmt>, top: string)
    requires forall i :: 0 <= i < |ss| ==> !ss[i].Medium?
    ensures TopMedium(ss, top) == top
    decreases |ss|
  {
    if |ss| > 0 {
      assert forall i :: 0 <= i < |ss[1..]| ==> ss[1..][i] == ss[i + 1];
      TopMediumWithoutMedium(ss[1..], top);
    }
  }

  /** A SUBSTRATE section with no ENDSUBSTRATE line never yields a substrate,
      and the caller's line counter is not written back. */
  lemma EmbeddedNeedsEnd(startLine: int, o: Oracles, env: Overrides, lines: seq<Line>)
    requires forall i :: 0 <= i < |lines| ==> Classify(Embedded(startLine), o.parseReal, lines[i]) != EndMark
    ensures Initialize(Embedded(startLine), o, env, lines).result.Failure?
    ensures Initialize(Embedded(startLine), o, env, lines).counterOut.None?
  {
    var mode := Embedded(startLine);
    InitializeMeaning(mode, o, env, lines);
    ReadLinesMeaning(mode, o, lines, startLine, Start);
  }

  /** In a standalone file ENDSUBSTRATE ends the read with a warning, never an
      error: the outcome is the same as if the file stopped just before it,
      apart from that warning. */
  lemma StandaloneEndOnlyWarns(file: string, o: Oracles, env: Overrides, a: seq<Line>, e: Line)
    requires Classify(Standalone(file), o.parseReal, e) == EndMark
    requires forall i :: 0 <= i < |a| ==> Classify(Standalone(file), o.parseReal, a[i]) != EndMark
    ensures var r := Initialize(Standalone(file), o, env, a + [e]);
            var r0 := Initialize(Standalone(file), o, env, a);
            && r.result == r0.result
            && (ReadLines(Standalone(file), o, a, 0, Start).Finished? <==> r.warning.Some?)
  {
    var mode := Standalone(file);
    var r0 := ReadLines(mode, o, a, 0, Start);
    ReadLinesMeaning(mode, o, a, 0, Start);
    if r0.Finished? {
      ReadLinesExtend(mode, o, a, e, 0, Start);
    } else {
      assert a + [e] + [] == a + [e];
      ReadLinesPrefixFails(mode, o, a, [e], 0, Start);
    }
  }

  /** A failure in a prefix of the input is the failure of the whole input. */
  lemma {:induction false} ReadLinesPrefixFails(mode: Mode, o: Oracles, a: seq<Line>, c: seq<Line>, lineNum: int, st: Stack)
    requires LayersConsistent(st)
    requires ReadLines(mode, o, a, lineNum, st).Failed?
    ensures ReadLines(mode, o, a + c, lineNum, st) == ReadLines(mode, o, a, lineNum, st)
    decreases |a|
  {
    assert (a + c)[0] == a[0];
    assert (a + c)[1..] == a[1..] + c;
    match Step(mode, o, st, Classify(mode, o.parseReal, a[0]), lineNum + 1)
    case Continue(next) =>
      ReadLinesPrefixFails(mode, o, a[1..], c, lineNum + 1, next);
    case _ =>
  }

  /** Whatever follows the first ENDSUBSTRATE line has no effect, in either mode. */
  lemma LinesAfterEndIgnored(mode: Mode, o: Oracles, env: Overrides, a: seq<Line>, e: Line, c: seq<Line>, c': seq<Line>)
    requires Classify(mode, o.parseReal, e) == EndMark
    ensures Initialize(mode, o, env, a + [e] + c) == Initialize(mode, o, env, a + [e] + c')
  {
    ReadLinesStopsAtEnd(mode, o, a, e, c, c', mode.FirstLineNum(), Start);
  }

  /** Depths listed in increasing order anywhere before the terminator make
      construction fail. */
  lemma AscendingDepthsRejected(mode: Mode, o: Oracles, env: Overrides, lines: seq<Line>, i: nat, j: nat)
    requires var d := Depths(Body(Stmts(mode, o.parseReal, lines)));
             i < j < |d| && d[i] < d[j]
    ensures Initialize(mode, o, env, lines).result.Failure?
  {
    InitializeMeaning(mode, o, env, lines);
    var d := Depths(Body(Stmts(mode, o.parseReal, lines)));
    if NonIncreasing(d) {
      NonIncreasingOrdered(d, i, j);
    }
  }

  /** A ground plane above the deepest interface makes construction fail. */
  lemma GroundPlaneAboveRejected(mode: Mode, o: Oracles, env: Overrides, lines: seq<Line>)
    requires var b := Body(Stmts(mode, o.parseReal, lines));
             var gp := LastGroundPlane(b, None);
             gp.Some? && |Depths(b)| > 0 && gp.value > Depths(b)[|Depths(b)| - 1]
    ensures Initialize(mode, o, env, lines).result.Failure?
  {
    InitializeMeaning(mode, o, env, lines);
  }

  /** In embedded mode the counter written back is the number of the
      ENDSUBSTRATE line: the start value plus every line read. */
  lemma CounterWriteBack(startLine: int, o: Oracles, env: Overrides, lines: seq<Line>)
    ensures var mode := Embedded(startLine);
            var r := Initialize(mode, o, env, lines);
            var b := Body(Stmts(mode, o.parseReal, lines));
            r.counterOut.Some? ==> r.counterOut.value == startLine + |b| + 1 && |b| < |lines|
    ensures var mode := Embedded(startLine);
            var ss := Stmts(mode, o.parseReal, lines);
            var b := Body(ss);
            (Initialize(mode, o, env, lines).counterOut.Some? <==>
               AllOk(o, b) && NonIncreasing(Depths(b)) && HasEnd(ss))
  {
    var mode := Embedded(startLine);
    ReadLinesMeaning(mode, o, lines, startLine, Start);
    assert Start.zInterface + Depths(Body(Stmts(mode, o.parseReal, lines)))
        == Depths(Body(Stmts(mode, o.parseReal, lines)));
  }

  /** A blank or comment line at the start changes neither whether the input
      is accepted nor the stack it describes. */
  lemma LeadingBlankIgnored(mode: Mode, o: Oracles, env: Overrides, blank: Line, lines: seq<Line>)
    requires Classify(mode, o.parseReal, blank) == Blank
    ensures var r := Initialize(mode, o, env, [blank] + lines);
            var r0 := Initialize(mode, o, env, lines);
            && (r.result.Success? <==> r0.result.Success?)
            && (r.result.Success? ==> r.result.value == r0.result.value)
  {
    var f := mode.FirstLineNum();
    assert ([blank] + lines)[0] == blank;
    assert ([blank] + lines)[1..] == lines;
    assert ReadLines(mode, o, [blank] + lines, f, Start) == ReadLines(mode, o, lines, f + 1, Start);
    ReadLinesMeaning(mode, o, lines, f + 1, Start);
    ReadLinesMeaning(mode, o, lines, f, Start);
  }

  // ---------------------------------------------------------------------
  // Constructor entry points and per-object operations.
  // ---------------------------------------------------------------------

  /** `LayeredSubstrate(FileName)`: `contents` is the file found on the
      search path, as lines, or `None` when it could not be opened. */
  function FromFile(fileName: string, contents: Option<seq<Line>>, o: Oracles, env: Overrides): (r: Result<Substrate, string>)
    ensures contents.None? ==> r == Failure("could not open file " + fileName)
    ensures contents.Some? ==> (r.Success? <==> Accepts(Standalone(fileName), o, contents.value))
    ensures r.Success? ==> r.value.stack == Described(Standalone(fileName), o, contents.value)
  {
    match contents
    case None => Failure("could not open file " + fileName)
    case Some(lines) =>
      InitializeMeaning(Standalone(fileName), o, env, lines);
      match Initialize(Standalone(fileName), o, env, lines).result
      case Success(s) => Success(s)
      case Failure(e) => Failure(Message(e))
  }

  /** `LayeredSubstrate(f, pLineNum)`: reads the rest of a SUBSTRATE section
      and returns the caller's line counter, advanced past ENDSUBSTRATE when
      the section was read through without a line error (even if the
      ground-plane check then fails), unchanged otherwise. */
  function FromSection(lines: seq<Line>, lineNum: int, o: Oracles, env: Overrides): (r: (Result<Substrate, string>, int))
    ensures r.0.Success? <==> Accepts(Embedded(lineNum), o, lines)
    ensures r.0.Success? ==> r.0.value.stack == Described(Embedded(lineNum), o, lines)
    ensures r.0.Success? ==> r.1 > lineNum
    ensures r.1 == lineNum || r.1 == lineNum + |Body(Stmts(Embedded(lineNum), o.parseReal, lines))| + 1
    ensures var ss := Stmts(Embedded(lineNum), o.parseReal, lines);
            var b := Body(ss);
            r.1 != lineNum <==> AllOk(o, b) && NonIncreasing(Depths(b)) && HasEnd(ss)
  {
    var mode := Embedded(lineNum);
    InitializeMeaning(mode, o, env, lines);
    CounterWriteBack(lineNum, o, env, lines);
    var out := Initialize(mode, o, env, lines);
    var counter := out.counterOut.GetOr(lineNum);
    match out.result
    case Success(s) => (Success(s), counter)
    case Failure(e) => (Failure(Message(e)), counter)
  }

  /** The object's invariant: a well-formed stack and one cache entry per layer. */
  predicate Valid(s: Substrate)
  {
    WellFormed(s.stack) && |s.cache.entries| == s.stack.NumLayers()
  }

  /** `GetLayerIndex` on a constructed substrate: a layer that exists, the
      one whose depth range contains `z`. */
  function GetLayerIndex(s: Substrate, z: real): (r: nat)
    requires Valid(s)
    ensures r < s.stack.NumLayers()
    ensures InLayer(s.stack.zInterface, r, z)
  {
    LayerIndexIsContainingLayer(s.stack.zInterface, z, LayerIndex(s.stack.zInterface, z));
    LayerIndex(s.stack.zInterface, z)
  }

  /** `UpdateCachedEpsMu` on a constructed substrate: only the cache moves.
      A recomputation, or a hit on a cache that was already coherent, leaves
      the cache coherent with the layers' materials; a hit on any other cache
      leaves it as it was. */
  function UpdateFrequency(s: Substrate, omega: Complex, eq: (Complex, Complex) -> bool,
                           epsMu: (string, Complex) -> EpsMu): (s': Substrate)
    requires Valid(s)
    ensures Valid(s')
    ensures s'.stack == s.stack && s'.config == s.config
    ensures s' == s.(cache := s'.cache)
    ensures !eq(s.cache.omega, Normalize(omega)) ==> s'.cache.omega == Normalize(omega)
    ensures Coherent(s.cache, s.stack.materials, epsMu) || !eq(s.cache.omega, Normalize(omega)) ==>
      Coherent(s'.cache, s'.stack.materials, epsMu)
    ensures eq(s.cache.omega, Normalize(omega)) ==> s' == s
  {
    UpdateKeepsCoherent(s.cache, s.stack.materials, omega, eq, epsMu);
    s.(cache := UpdateCachedEpsMu(s.cache, s.stack.materials, omega, eq, epsMu).cache)
  }

  /** The first frequency update of a freshly constructed substrate is a
      miss, as long as the float comparison never matches a key with negative
      real part against one with non-negative real part: every layer's
      material is queried and the cache ends coherent. */
  lemma FirstUpdateComputes(mode: Mode, o: Oracles, env: Overrides, lines: seq<Line>,
                            omega: Complex, eq: (Complex, Complex) -> bool,
                            epsMu: (string, Complex) -> EpsMu)
    requires forall a, b :: eq(a, b) ==> (a.re < 0.0 <==> b.re < 0.0)
    ensures var r := Initialize(mode, o, env, lines);
            r.result.Success? ==>
              var s := r.result.value;
              var u := UpdateCachedEpsMu(s.cache, s.stack.materials, omega, eq, epsMu);
              && |u.queries| == s.stack.NumLayers()
              && Coherent(UpdateFrequency(s, omega, eq, epsMu).cache, s.stack.materials, epsMu)
  {
  }

  /** A freshly constructed substrate is valid. */
  lemma ConstructedIsValid(mode: Mode, o: Oracles, env: Overrides, lines: seq<Line>)
    ensures var r := Initialize(mode, o, env, lines);
            r.result.Success? ==> Valid(r.result.value)
  {
  }
}

=== FILE: text.dfy ===
/** The few character-level operations the substrate reader relies on:
    the C library's case-insensitive comparison and decimal rendering of
    line numbers in error messages. */
module Text {

  /** `tolower` of the C locale: only the 26 ASCII capitals change. */
  function LowerChar(c: char): char
  {
    if 'A' <= c <= 'Z' then (c as int - 'A' as int + 'a' as int) as char else c
  }

  /** `strcasecmp(a, b) == 0`: same length and equal after lower-casing
      every character. */
  predicate EqualsIgnoreCase(a: string, b: string)
  {
    |a| == |b| && forall i :: 0 <= i < |a| ==> LowerChar(a[i]) == LowerChar(b[i])
  }

  /** The decimal digit for `d`. */
  function Digit(d: nat): char
    requires d < 10
  {
    ('0' as int + d) as char
  }

  /** The number a string of decimal digits spells, most significant first. */
  function DecimalValue(s: string): nat
    requires forall i :: 0 <= i < |s| ==> '0' <= s[i] <= '9'
  {
    if |s| == 0 then 0
    else DecimalValue(s[..|s| - 1]) * 10 + (s[|s| - 1] as int - '0' as int)
  }

  /** The `%i` rendering of a non-negative number: its decimal digits, with
      no leading zero. */
  function NatToString(n: nat): (s: string)
    ensures |s| > 0
    ensures forall i :: 0 <= i < |s| ==> '0' <= s[i] <= '9'
    ensures DecimalValue(s) == n
    ensures n > 0 ==> s[0] != '0'
  {
    if n < 10 then [Digit(n)]
    else
      var prefix := NatToString(n / 10);
      var s := prefix + [Digit(n % 10)];
      assert s[..|s| - 1] == prefix;
      s
  }

  /** `snprintf` into a buffer of `size` characters keeps at most
      `size - 1` of them. */
  function Truncate(s: string, size: nat): (t: string)
    requires size > 0
    ensures |t| <= size - 1
    ensures |t| <= |s| && t == s[..|t|]
    ensures |s| < size ==> t == s
    ensures |s| >= size ==> |t| == size - 1
  {
    if |s| < size then s else s[..size - 1]
  }
}
